=== FILE: README.md ===
# graphcurses viewport model

graphcurses plots `y = f(x)` in a terminal. A `Plane` holds the visible
math-space window (`xmin`, `xmax`, `ymin`, `ymax`), the tick intervals
(`xscale`, `yscale`) and the grid size (`xmaxs` columns, `ymaxs` rows). Keys
pan and zoom the window, `r` restores the default window, `f` prompts for a
new expression, and `q` quits. Every frame draws the two axes with tick marks
and then one `.` per sample of the function.

The program exists in three versions, and the model covers all of them. A
`Variant` value selects where they differ:

- `SingleFile` is `graphcurses.c`.
- `SplitC` is `src/main.c` with `src/plane.c`.
- `ClassCpp` is `src/main.cpp` with the `Plane` class in `src/plane.cpp` / `src/plane.h`.

Modules, one per file:

- `Constants` (`constants.dfy`) holds the default window, the tick intervals, the pan step and the zoom factors.
- `Mapper` (`mapper.dfy`) holds the affine map `plane_scale` / `PLANE_SCALE` / `Plane::scale` and the per-cell step.
- `Plane` (`plane.dfy`) holds the viewport and its operations: init, restore, shift and zoom, plus the horizontal and vertical steps.
- `Controls` (`controls.dfy`) holds the key dispatch, the main loop over a sequence of keys, and the expression prompt loop.
- `Raster` (`raster.dfy`) holds one frame: C `fmod` and the tick test, the origin position, the cells the axes write, and the samples the graph plots.

Coordinates are mathematical reals. Pi is the double `M_PI` as an exact
fraction, and `1.0f / 1.05f` is read as exactly 20/21.

Three behaviours of the source are kept exactly as written, and lemmas state
their consequences:

- The zoom centre for x is `(xmin + ymax) / 2`, not the x midpoint. The x midpoint survives a zoom only when the factor is 1 or `xmax == ymax`. From the default window, `+` then `-` does not bring `xmin` back.
- The single-file program's vertical step divides `xmax - ymin`, not `ymax - ymin`. On the default window that step is 1.5 times the other versions' step.
- The vertical axis walk tests the value `ymin + ystep * i` for row `i`, counting from `ymin`, although row 0 is the top of the screen.

## Model

| member | source | states |
|---|---|---|
| Constants.DefaultWindow | graphcurses.c:7-15 | The default window [-2 pi, 2 pi] x [-pi, pi] is a proper rectangle symmetric about the origin. Both tick intervals are positive. The zoom-in factor lies in (0, 1), the zoom-out factor exceeds 1, and their product is 1. |
| Mapper.Scale | src/plane.c:31-36 | The result is the affine image of `val`: `(r - nmin) * (omax - omin) == (val - omin) * (nmax - nmin)`. A degenerate source range is excluded because the source divides by it. |
| Mapper.ScaleEndpoints | graphcurses.c:21-22 | `omin` maps to `nmin` and `omax` maps to `nmax`. |
| Mapper.ScaleInverse | src/plane.cpp:51-55 | Mapping back with the ranges swapped returns the original value. |
| Mapper.ScaleMonotone | src/plane.c:31-36 | The map is strictly increasing onto an increasing target range and strictly decreasing onto a flipped one, such as the row axis. |
| Mapper.ScaleWithin | graphcurses.c:21-22 | A value lies in the source range if and only if its image lies in an increasing target range. |
| Mapper.ScaleWithinFlipped | src/plane.c:31-36 | The same if-and-only-if for a decreasing target range (rows down to 0). |
| Mapper.ScaleTowardCentre | src/plane.c:54-57 | Mapping the zoom factor from [1, 0] onto [bound, centre] gives `factor * bound + (1 - factor) * centre`. |
| Mapper.Step | src/plane.c:60-65 | The step times (cells + 1) is the span. The step is positive and at most the span for an increasing range, zero for an empty one, and negative for an inverted one. |
| Plane.Init | src/plane.c:7-18 | `plane_init` yields the default window and ticks with the given grid size, and the result is valid. |
| Plane.Restore | src/plane.c:38-47 | Restoring yields the default window and ticks, keeps the grid size, and gives a valid viewport. |
| Plane.RestoreIdempotent | src/plane.cpp:3-11 | Restoring twice equals restoring once. |
| Plane.RestoreForgetsBounds | graphcurses.c:144-153 | Two viewports restore to the same view if and only if they have the same grid size. |
| Plane.InitIsRestore | graphcurses.c:120-131 | Initialising sets exactly what restoring sets, so the restore that `main` performs after `plane_init` changes nothing. |
| Plane.Shift | src/plane.c:20-29 | Each xmin moves by `xshift` sixteenths of the x span, and each ymin by `yshift` sixteenths of the y span. Both spans, the ticks and the grid are unchanged. A zero shift leaves its axis alone, and validity is preserved. |
| Plane.ShiftUndo | graphcurses.c:133-142 | Shifting by the negated units undoes a shift. |
| Plane.ShiftCompose | src/plane.cpp:81-89 | Two shifts equal one shift by the summed units. |
| Plane.ShiftTimes | src/plane.c:20-29 | `n` shifts in a row keep both spans and the grid. |
| Plane.ShiftTimesIsShift | graphcurses.c:133-142 | `n` shifts by (dx, dy) equal one shift by (n dx, n dy). Pans accumulate linearly because a shift never changes the span the next one is scaled by. |
| Plane.Zoom | src/plane.c:49-58 | The distance from each bound to its axis's zoom centre is multiplied by `factor`, so both spans are too. The y centre is fixed, and the ticks and grid are unchanged. A positive factor preserves validity. |
| Plane.ZoomIdentity | graphcurses.c:155-164 | A zoom by factor 1 changes nothing. |
| Plane.ZoomInOutRestoresY | src/plane.cpp:71-79 | Zooming by `factor` and then by `1/factor` restores `ymin` and `ymax`. |
| Plane.ZoomXMidpointIff | src/plane.c:52 | The x midpoint is unchanged by a zoom if and only if the factor is 1 or `xmax == ymax`. |
| Plane.ZoomTimes | graphcurses.c:155-164 | After `n` zooms by one factor, both spans are `factor^n` times the original, and the grid is unchanged. |
| Plane.XStep | src/plane.c:63 | The horizontal step times (columns + 1) is the x span, and it is positive for an increasing window. |
| Plane.YStep | graphcurses.c:25-26 | The vertical step times (rows + 1) is `xmax - ymin` in the single-file program and the y span in the other two. |
| Plane.SingleFileYStepOnDefault | graphcurses.c:23-26 | On the default window the single-file vertical step is 1.5 times the split C one, and the split C and C++ steps agree. |
| Controls.KnownKeys | graphcurses.c:106-117 | The key table of each version contains neither `q` nor the initial key 0. |
| Controls.Decode | src/main.c:100-110 | A key maps to `Ignore` if and only if it is outside the version's key table. Every zoom factor is positive. |
| Controls.Apply | graphcurses.c:107-116 | Only the toggle changes the derivative flag. A pan keeps both spans. A restore or a new function lands on the default window. The menu and unbound keys change nothing, and no command changes the grid size. |
| Controls.HandleKey | graphcurses.c:103-118 | An unbound key leaves the state unchanged. Every key preserves validity and the grid size. The derivative flag flips if and only if the version is the single-file one and the key is `d`. |
| Controls.VerticalPanKeys | graphcurses.c:107-108 | `k` and Up pan y up one unit, `j` and Down pan it down one unit, and x is untouched. |
| Controls.HorizontalPanKeys | src/main.cpp:93-94 | `h` and Left pan x left one unit, `l` and Right pan it right one unit, and y is untouched. |
| Controls.PanThereAndBack | src/main.c:102-105 | `h` then `l`, `l` then `h`, `k` then `j`, and `j` then `k` each leave the state as it was. |
| Controls.PanBack | graphcurses.c:107-110 | Any two pan keys whose units are opposite cancel each other. |
| Controls.PanKeyStep | src/main.cpp:91-94 | A pan key shifts the view by its units and leaves the derivative flag alone. |
| Controls.PanPresses | graphcurses.c:109-110 | `n` presses of one pan key equal one pan by `n` times its units. |
| Controls.ZoomKeys | src/main.cpp:95-96 | `+` zooms by 20/21 and `-` by 21/20. On a valid view, `+` narrows the x span and `-` widens the y span. |
| Controls.ZoomInThenOutKeys | graphcurses.c:111-112 | `+` followed by `-` restores the y range. |
| Controls.ZoomInThenOutMovesX | graphcurses.c:158-161 | From the default window, `+` followed by `-` leaves `xmin` away from its default. |
| Controls.ZoomMovesX | src/plane.cpp:73-76 | The two zooms of `ZoomInThenOutMovesX` move `xmin` by exactly -pi/1680. |
| Controls.RestoreKeys | graphcurses.c:114-115 | `r` restores the default window whatever the view was, and `f` does the same because its prompt restores. Pressing `r` a second time changes nothing. |
| Controls.DerivativeToggle | graphcurses.c:113-116 | In the single-file program `d` flips only the derivative flag, and pressing it twice is the identity. `m` leaves the state unchanged. In the other versions `d` does nothing. |
| Controls.Start | graphcurses.c:255-259 | The starting session is the default view on the given grid, with the derivative hidden. |
| Controls.Replay | src/main.cpp:21-37 | Handling a sequence of keys preserves validity and the grid size. |
| Controls.ZoomInPresses | graphcurses.c:111 | `n` presses of `+` give the `n`-fold compounded zoom by 20/21 and leave the derivative flag unchanged. |
| Controls.QuitIndex | graphcurses.c:262-263 | The loop stops at the first `q`, or at the end of the input. No key before the stopping point is `q`, and the key at it is `q`. |
| Controls.QuitIndexEnd | src/main.c:28 | The loop runs to the end of the input if and only if the input holds no `q`. |
| Controls.QuitIndexAt | src/main.cpp:21 | A position is the stopping point exactly when the keys before it are not `q` and the key at it (if any) is `q`. The loop stopped before the end if and only if a `q` was read. |
| Controls.Run | src/main.c:27-43 | The input is the keys the main loop's own `getch` returns. There is one frame for the initial key 0 and one for each key read before the first `q`. Frame `j` is the replay of the first `j` keys. The loop quits if and only if `q` occurs in the input. Every frame of a valid session is valid. |
| Controls.ValidateExpression | graphcurses.c:83-95 | The prompt repeats until the first expression that compiles, and every earlier one failed. The resulting view is the restored one. |
| Raster.Trunc | graphcurses.c:176 | Converting the quotient to an integer rounds toward zero: the result lies within one of `q`, on the same side of zero. |
| Raster.FMod | src/plane.c:77 | The dividend minus the result is a whole multiple of the divisor. The result is smaller than the divisor in magnitude and has the sign of the dividend. |
| Raster.FModOdd | src/plane.cpp:23 | `fmod(-x, y) == -fmod(x, y)`. |
| Raster.FModOfMultiple | src/plane.c:82 | A whole multiple of the divisor leaves remainder 0. |
| Raster.IsTick | src/plane.c:77 | A value is a tick if and only if it lies closer than one step to the multiple of the tick interval whose quotient is rounded toward zero. A step of 0 or less marks nothing, and a step at least as wide as the interval marks everything. |
| Raster.TickRule | graphcurses.c:176 | With a positive step, every multiple of the tick interval is a tick. The test is symmetric about zero, and a step of 0 or less marks nothing. |
| Raster.TickExamples | src/plane.cpp:31 | With interval 1 and step 0.1, 1.0 and 1.05 are ticks, while 1.1 and -0.95 are not. |
| Raster.OriginCol | src/plane.c:71 | The column of the y axis times the x span is `-xmin * columns`, which places x = 0 at its share of [0, columns]. |
| Raster.OriginRow | src/plane.c:72 | The row of the x axis, less `rows`, times the y span is `ymin * rows`, which places y = 0 at its share of [rows, 0]. |
| Raster.OriginOnGrid | src/plane.c:71-72 | On a valid view with at least one column, the origin's column lies in [0, columns] if and only if 0 lies in [xmin, xmax]. On a valid view with at least one row, the origin's row lies in [0, rows] if and only if 0 lies in [ymin, ymax]. |
| Raster.RestoredOriginCentred | src/plane.cpp:15-16 | After a restore the origin is drawn at the centre of the grid. On an 80 by 24 screen that is column 40, row 12. |
| Raster.Axes | src/plane.c:67-86 | The axes write one cell per column on the origin row, then one cell per row on the origin column. A cell is a plus if and only if it passes the tick test. The two C versions then write a final plus at the origin. For the single-file program this is the counted walk with that program's steps (see "## Left out"). |
| Raster.DrawAxes | src/plane.cpp:13-35 | The two counted loops (and the origin plus in the C versions) write exactly the cells of `Axes`. |
| Raster.GlyphAt | graphcurses.c:177 | The glyph left at a position is absent if and only if no cell was written there. Otherwise it is the glyph of a cell written there after which no cell is written there, so the last write wins. |
| Raster.AxesCoverGrid | src/plane.c:75-85 | Every column of the origin row and every row of the origin column ends up with a glyph. In the C versions the origin shows a plus. |
| Raster.SingleFileStepVanishes | graphcurses.c:179 | From the starting window, after `n` presses of `k` the single-file vertical step is at most 0 if and only if `n` is at least 24, and it is exactly 0 at 24. On a grid with at least one row and from 24 presses on, the loop counter stays below the row count after every number of rounds, so the single-file vertical axis loop never ends. |
| Raster.RaisedStep | graphcurses.c:25-26 | Raising the default window by `n` units makes the single-file vertical step at most 0 if and only if `n` is at least 24. |
| Raster.SampleX | src/plane.c:94 | Sample `k` lies `k / (columns + 1)` of the x span past `xmin`. |
| Raster.SampleCount | src/plane.c:94 | For a window of non-zero width, there are no samples if and only if the window is inverted. Otherwise the last sample is exactly `xmax`. |
| Raster.SampleBound | src/plane.c:94 | For every `k` up to the sample count (the only samples the loop tests), the loop test `x <= xmax` holds for sample `k` if and only if `k` is below the sample count. |
| Raster.SamplesSpanWindow | src/plane.cpp:43 | On a valid view there are columns + 2 samples. They start at `xmin`, end exactly at `xmax`, rise strictly, and stay within the window. |
| Raster.PlotAt | src/plane.c:101-107 | A point keeps its value. Its column times the x span is `(x - xmin) * columns`, and its row less `rows`, times the y span, is `-(y - ymin) * rows`. |
| Raster.SampleColumnAt | src/plane.c:104 | Sample `k` is plotted in column `k * columns / (columns + 1)`, whatever value is plotted there. |
| Raster.SampleColumn | src/plane.c:101-107 | Sample `k` is plotted in column `k * columns / (columns + 1)`, which lies in [0, columns]. |
| Raster.Plots | graphcurses.c:187-212 | There is one plot per sample, at that sample's x, with the value of `f`. A derivative point is present if and only if the derivative is shown, and it carries the value of `df`. The point of sample `k` is drawn in column `k * columns / (columns + 1)`. Its row less `rows`, times the y span, is `-(value - ymin) * rows`, so `ymin` is on the bottom row and `ymax` on row 0. The same holds for the derivative point. |
| Raster.DrawGraph | src/plane.c:88-99 | The `x += xstep` loop produces exactly the plots of `Plots`, in order. |
| Raster.EvaluationCounts | graphcurses.c:192-200 | A valid frame has columns + 2 plots. Each has a derivative point when the derivative is shown, and none otherwise. |

## Left out

- Terminal I/O is left out: ncurses initialisation, colours, attributes, the header line, `refresh`, `erase`, and the help window drawn by `m`. A frame is modelled as the sequence of cells and points it writes.
- `mvaddch` converts positions to integers and clips them at the screen edge. Neither is modelled; grid positions stay real.
- Expression parsing and evaluation (libmatheval) are left out. `f` and `df` are parameters of `Plots` / `DrawGraph`. Whether a typed expression compiles is the input `compiles` of `ValidateExpression`.
- The 256-byte input buffer and its allocation are left out, because the model never sees the text.
- Single-precision rounding is not modelled, and all arithmetic is over the reals. In particular, the number of iterations of the float loop `x <= xmax` may differ from `columns + 2` by rounding.
- Raster.Axes, Raster.AxesCoverGrid, Raster.DrawAxes: these model the counted `int` loops of `src/plane.c` and `src/plane.cpp`. For the single-file program they describe the same counted walk with that program's steps, not the cells graphcurses.c:174-183 writes. Those loops advance a `float` counter by the step, write the counter truncated as the column or row, and test `xmin + xstep * i` at that fractional `i`. Each column is then written about `1 / xstep` times, and columns are skipped once `xstep > 1`. From the starting window on 80 columns that happens after 39 presses of `-`. From then on, the single-file program does not give every column of the origin row a glyph, although `AxesCoverGrid` states it for the counted walk.
- Raster.Axes for the single-file program returns a finite list of cells in every case. On a grid with at least one row, the single-file vertical loop (graphcurses.c:179) never ends once its step is 0 or less. `Raster.SingleFileStepVanishes` shows this happens after 24 presses of `k` from the starting window, because that step divides `xmax - ymin`. The model does not represent the hang.
- Plane.XStep, Plane.YStep: the C++ `getstep` (src/plane.cpp:57-61) assigns each step only when the variable already holds a non-zero value, and the variable is uninitialised at every call. The model always assigns.
- Raster.SampleCount, Raster.Plots and Raster.DrawGraph require a window of non-zero width. For an empty window (`xmin == xmax`) the step is zero, and the source loop `x <= xmax` (src/plane.c:94, graphcurses.c:192) never ends. No valid viewport has an empty window.
- Controls.Run takes the keys returned by the main loop's own `getch`. Keys typed at the `f` prompt are read by `getnstr`, and the key that closes the single-file `m` menu is read by `wgetch`. Neither kind is in the input, and neither is compared with `q`.
- Controls.ValidateExpression requires that some prompt compiles. With no compiling expression the source prompts forever.
- Controls.Start takes the grid size as parameters. Reading the screen size is I/O. The C++ `Plane()` constructor is not part of this model, so the C++ session is assumed to start, like the C ones, from the default window on the screen's grid.
- The header that `src/main.c` includes for the split C program is not part of this model. That header defines the C `struct Plane`, SHIFT_STEP and the zoom factors. The values are taken from graphcurses.c:7-15.
- Terminal resizing is not modelled. The grid size is fixed for a session.
- Pi is the double `M_PI` as a rational. The `float` rounding of `2.0f * M_PI` is not modelled.

=== FILE: constants.dfy ===
/**
  The fixed numbers every variant of the plotter shares: the default window
  and tick interval restored by the `r` key, and the amounts one pan or zoom
  key press moves the view by.

  All coordinates are modelled as mathematical reals; the single-precision
  rounding of the original `float` fields is not modelled.
 */
module Constants {

  /** `M_PI` as the C library defines it: the double nearest to pi. */
  const Pi: real := 884279719003555.0 / 281474976710656.0

  /* The default window, x in [-2 pi, 2 pi] and y in [-pi, pi]. */
  const XMinPlane: real := -2.0 * Pi
  const XMaxPlane: real := 2.0 * Pi
  const YMinPlane: real := -Pi
  const YMaxPlane: real := Pi

  /* The default distance between two tick marks on each axis. */
  const XScalePlane: real := 1.0
  const YScalePlane: real := 1.0

  /** Units panned by one arrow key press (a unit is a sixteenth of the span). */
  const ShiftStep: real := 1.0

  /** `1.0f / 1.05f` and `1.05f`, read as exact fractions. */
  const ZoomInFactor: real := 20.0 / 21.0
  const ZoomOutFactor: real := 21.0 / 20.0

  /** The default window is a proper rectangle centred on the origin, its tick
      intervals are positive, and the two zoom factors undo each other. */
  lemma DefaultWindow()
    ensures 0.0 < Pi
    ensures XMinPlane < XMaxPlane && YMinPlane < YMaxPlane
    ensures XMinPlane == -XMaxPlane && YMinPlane == -YMaxPlane
    ensures 0.0 < XScalePlane && 0.0 < YScalePlane
    ensures 0.0 < ZoomInFactor < 1.0 < ZoomOutFactor
    ensures ZoomInFactor * ZoomOutFactor == 1.0
  {
  }
}

=== FILE: controls.dfy ===
/**
  The key-dispatch state machine and the main loop: each key read from the
  terminal selects a pan, a zoom, a restore, a derivative toggle or a new
  function; every other key leaves the state alone, and `q` ends the loop.
 */
module Controls {
  import opened Constants
  import opened Plane

  /* The ncurses codes of the arrow keys (KEY_DOWN is octal 0402). */
  const KeyDown: int := 258
  const KeyUp: int := 259
  const KeyLeft: int := 260
  const KeyRight: int := 261

  /** The key that ends the main loop. */
  const QuitKey: int := 'q' as int

  /** The state the loop carries from one key to the next: the viewport and
      whether the derivative is drawn (only the single-file program has the
      `d` key that changes it). */
  datatype Session = Session(view: Viewport, showDerivative: bool)

  /** What a key asks for. */
  datatype Command =
    | Pan(xshift: real, yshift: real)
    | ZoomBy(factor: real)
    | ToggleDerivative
    | RestoreView
    | NewFunction
    | ShowMenu
    | Ignore

  /** The keys the dispatch table of `variant` reacts to. */
  function KnownKeys(variant: Variant): (keys: set<int>)
    ensures QuitKey !in keys && 0 !in keys
  {
    var common := {'k' as int, KeyUp, 'j' as int, KeyDown, 'h' as int, KeyLeft,
                   'l' as int, KeyRight, '+' as int, '-' as int, 'r' as int, 'f' as int};
    if variant == SingleFile then common + {'d' as int, 'm' as int} else common
  }

  /** The `switch` of `keys_handle` / `handle_key`. The C++ version writes the
      literals `1.0f`, `1.0f/1.05f` and `1.05f` where the C versions use
      SHIFT_STEP, ZOOM_IN_FACTOR and ZOOM_OUT_FACTOR; the values agree. */
  function Decode(variant: Variant, key: int): (c: Command)
    ensures c == Ignore <==> key !in KnownKeys(variant)
    ensures c.ZoomBy? ==> 0.0 < c.factor
  {
    if key == 'k' as int || key == KeyUp then Pan(0.0, ShiftStep)
    else if key == 'j' as int || key == KeyDown then Pan(0.0, -ShiftStep)
    else if key == 'h' as int || key == KeyLeft then Pan(-ShiftStep, 0.0)
    else if key == 'l' as int || key == KeyRight then Pan(ShiftStep, 0.0)
    else if key == '+' as int then ZoomBy(ZoomInFactor)
    else if key == '-' as int then ZoomBy(ZoomOutFactor)
    else if key == 'r' as int then RestoreView
    else if key == 'f' as int then NewFunction
    else if variant == SingleFile && key == 'd' as int then ToggleDerivative
    else if variant == SingleFile && key == 'm' as int then ShowMenu
    else Ignore
  }

  /** Carries out one command. Asking for a new function restores the view,
      because every prompt for an expression restores it (see
      `ValidateExpression`); the help menu only draws. Only the toggle
      touches the derivative flag, a pan keeps both spans, a restore or a new
      function lands on the default window, and nothing changes the grid. */
  function Apply(c: Command, s: Session): (r: Session)
    ensures c == Ignore || c == ShowMenu ==> r == s
    ensures r.showDerivative != s.showDerivative <==> c == ToggleDerivative
    ensures c.Pan? ==> XSpan(r.view) == XSpan(s.view) && YSpan(r.view) == YSpan(s.view)
    ensures c == RestoreView || c == NewFunction ==> IsDefaultView(r.view) && Valid(r.view)
    ensures SameGrid(r.view, s.view)
  {
    match c
    case Pan(dx, dy) => s.(view := Shift(s.view, dx, dy))
    case ZoomBy(factor) => s.(view := Zoom(s.view, factor))
    case ToggleDerivative => s.(showDerivative := !s.showDerivative)
    case RestoreView => s.(view := Restore(s.view))
    case NewFunction => s.(view := Restore(s.view))
    case ShowMenu => s
    case Ignore => s
  }

  /** One pass of `keys_handle` / `handle_key`. Keys outside the table change
      nothing, every key keeps the viewport valid and the grid size, and only
      `d` in the single-file program flips the derivative flag. */
  function HandleKey(variant: Variant, s: Session, key: int): (r: Session)
    ensures key !in KnownKeys(variant) ==> r == s
    ensures Valid(s.view) ==> Valid(r.view)
    ensures SameGrid(r.view, s.view)
    ensures r.showDerivative != s.showDerivative <==> variant == SingleFile && key == 'd' as int
  {
    Apply(Decode(variant, key), s)
  }

  /** Up and down pan the y range by one unit; the x range is untouched. */
  lemma VerticalPanKeys(variant: Variant, s: Session)
    ensures HandleKey(variant, s, 'k' as int) == HandleKey(variant, s, KeyUp)
    ensures HandleKey(variant, s, 'k' as int).view == Shift(s.view, 0.0, 1.0)
    ensures HandleKey(variant, s, 'j' as int) == HandleKey(variant, s, KeyDown)
    ensures HandleKey(variant, s, 'j' as int).view == Shift(s.view, 0.0, -1.0)
    ensures HandleKey(variant, s, 'k' as int).view.xmin == s.view.xmin
    ensures HandleKey(variant, s, 'j' as int).view.xmax == s.view.xmax
  {
  }

  /** Left and right pan the x range by one unit; the y range is untouched. */
  lemma HorizontalPanKeys(variant: Variant, s: Session)
    ensures HandleKey(variant, s, 'h' as int) == HandleKey(variant, s, KeyLeft)
    ensures HandleKey(variant, s, 'h' as int).view == Shift(s.view, -1.0, 0.0)
    ensures HandleKey(variant, s, 'l' as int) == HandleKey(variant, s, KeyRight)
    ensures HandleKey(variant, s, 'l' as int).view == Shift(s.view, 1.0, 0.0)
    ensures HandleKey(variant, s, 'h' as int).view.ymin == s.view.ymin
    ensures HandleKey(variant, s, 'l' as int).view.ymax == s.view.ymax
  {
  }

  /** `h` then `l` (and `k` then `j`) is the identity, over the reals. */
  lemma PanThereAndBack(variant: Variant, s: Session)
    ensures HandleKey(variant, HandleKey(variant, s, 'h' as int), 'l' as int) == s
    ensures HandleKey(variant, HandleKey(variant, s, 'l' as int), 'h' as int) == s
    ensures HandleKey(variant, HandleKey(variant, s, 'k' as int), 'j' as int) == s
    ensures HandleKey(variant, HandleKey(variant, s, 'j' as int), 'k' as int) == s
  {
    PanBack(variant, s, 'h' as int, 'l' as int, -1.0, 0.0);
    PanBack(variant, s, 'l' as int, 'h' as int, 1.0, 0.0);
    PanBack(variant, s, 'k' as int, 'j' as int, 0.0, 1.0);
    PanBack(variant, s, 'j' as int, 'k' as int, 0.0, -1.0);
  }

  /** Two pan keys with opposite units cancel. */
  lemma PanBack(variant: Variant, s: Session, there: int, back: int, dx: real, dy: real)
    requires Decode(variant, there) == Pan(dx, dy) && Decode(variant, back) == Pan(-dx, -dy)
    ensures HandleKey(variant, HandleKey(variant, s, there), back) == s
  {
    PanKeyStep(variant, s, there, dx, dy);
    PanKeyStep(variant, HandleKey(variant, s, there), back, -dx, -dy);
    ShiftUndo(s.view, dx, dy);
  }

  /** `+` zooms by 1/1.05 and `-` by 1.05: a zoom in shrinks both spans, a
      zoom out widens them, in the same proportion. */
  lemma ZoomKeys(variant: Variant, s: Session)
    ensures HandleKey(variant, s, '+' as int).view == Zoom(s.view, 20.0 / 21.0)
    ensures HandleKey(variant, s, '-' as int).view == Zoom(s.view, 21.0 / 20.0)
    ensures Valid(s.view) ==> XSpan(HandleKey(variant, s, '+' as int).view) < XSpan(s.view)
    ensures Valid(s.view) ==> YSpan(s.view) < YSpan(HandleKey(variant, s, '-' as int).view)
  {
  }

  /** `+` then `-` brings the y range back exactly; the x range drifts,
      because its zoom centre mixes in `ymax` (see `ZoomInThenOutMovesX`). */
  lemma ZoomInThenOutKeys(variant: Variant, s: Session)
    ensures HandleKey(variant, HandleKey(variant, s, '+' as int), '-' as int).view.ymin == s.view.ymin
    ensures HandleKey(variant, HandleKey(variant, s, '+' as int), '-' as int).view.ymax == s.view.ymax
  {
    ZoomInOutRestoresY(s.view, ZoomInFactor);
  }

  /** From the default window, `+` then `-` does not return `xmin` to its
      default: the x centre moved between the two zooms. */
  lemma ZoomInThenOutMovesX(variant: Variant, s: Session)
    requires IsDefaultView(s.view)
    ensures HandleKey(variant, HandleKey(variant, s, '+' as int), '-' as int).view.xmin != s.view.xmin
  {
    var s1 := HandleKey(variant, s, '+' as int);
    var s2 := HandleKey(variant, s1, '-' as int);
    assert s1.view == Zoom(s.view, ZoomInFactor);
    assert s2.view == Zoom(s1.view, ZoomOutFactor);
    DefaultWindow();
    ZoomMovesX(Pi, s.view.xmin, s.view.ymax, s1.view.xmin, s1.view.ymax, s2.view.xmin);
  }

  /** The arithmetic of `ZoomInThenOutMovesX`, with pi left symbolic. In the
      default window the x centre is -pi/2; after zooming in `xmin` is
      -81 pi/42 and `ymax` is 20 pi/21, which moves the centre to -41 pi/84,
      and zooming out from there lands `xmin` on -2 pi - pi/1680. */
  lemma ZoomMovesX(p: real, xmin: real, ymax: real, xmin1: real, ymax1: real, xmin2: real)
    requires 0.0 < p && xmin == -2.0 * p && ymax == p
    requires xmin1 - (xmin + ymax) / 2.0 == (20.0 / 21.0) * (xmin - (xmin + ymax) / 2.0)
    requires ymax1 == (20.0 / 21.0) * ymax
    requires xmin2 - (xmin1 + ymax1) / 2.0 == (21.0 / 20.0) * (xmin1 - (xmin1 + ymax1) / 2.0)
    ensures xmin2 == xmin - p / 1680.0
  {
    assert xmin1 == -81.0 * p / 42.0;
    assert ymax1 == 40.0 * p / 42.0;
  }

  /** `r` and `f` both leave the default window, whatever the view was. */
  lemma RestoreKeys(variant: Variant, s: Session)
    ensures HandleKey(variant, s, 'r' as int) == s.(view := Restore(s.view))
    ensures HandleKey(variant, s, 'f' as int) == HandleKey(variant, s, 'r' as int)
    ensures IsDefaultView(HandleKey(variant, s, 'r' as int).view)
    ensures HandleKey(variant, HandleKey(variant, s, 'r' as int), 'r' as int)
         == HandleKey(variant, s, 'r' as int)
  {
  }

  /** In the single-file program `d` flips the derivative flag and touches
      nothing else, so pressing it twice is the identity; `m` only shows the
      help. In the other two versions neither key is bound. */
  lemma DerivativeToggle(variant: Variant, s: Session)
    ensures variant == SingleFile ==> HandleKey(variant, s, 'd' as int) == s.(showDerivative := !s.showDerivative)
    ensures HandleKey(variant, HandleKey(variant, s, 'd' as int), 'd' as int) == s
    ensures HandleKey(variant, s, 'm' as int) == s
    ensures variant != SingleFile ==> HandleKey(variant, s, 'd' as int) == s
  {
  }

  /** The session the loop starts from: the default window on a screen of the
      given size and the derivative hidden. */
  function Start(columns: nat, rows: nat): (s: Session)
    ensures Valid(s.view) && IsDefaultView(s.view) && !s.showDerivative
    ensures s.view.columns == columns && s.view.rows == rows
  {
    Session(Restore(Init(columns, rows)), false)
  }

  /** The state after handling `keys` one after the other. */
  function Replay(variant: Variant, s: Session, keys: seq<int>): (r: Session)
    ensures Valid(s.view) ==> Valid(r.view)
    ensures SameGrid(r.view, s.view)
    decreases |keys|
  {
    if |keys| == 0 then s
    else HandleKey(variant, Replay(variant, s, keys[..|keys| - 1]), keys[|keys| - 1])
  }

  /** `n` presses of the same key. */
  function Presses(key: int, n: nat): (keys: seq<int>)
    ensures |keys| == n
    ensures forall i :: 0 <= i < n ==> keys[i] == key
  {
    seq(n, _ => key)
  }

  /** Pressing `+` `n` times is `n` compounded zooms by 1/1.05, so both spans
      shrink to (20/21)^n of what they were. */
  lemma {:induction false} ZoomInPresses(variant: Variant, s: Session, n: nat)
    ensures Replay(variant, s, Presses('+' as int, n)).view == ZoomTimes(s.view, ZoomInFactor, n)
    ensures Replay(variant, s, Presses('+' as int, n)).showDerivative == s.showDerivative
  {
    if n > 0 {
      ZoomInPresses(variant, s, n - 1);
      PressStep(variant, s, '+' as int, n);
      ZoomKeys(variant, Replay(variant, s, Presses('+' as int, n - 1)));
    }
  }

  /** Pressing a pan key `n` times is `n` pans by its units in a row, which
      is one pan by `n` times its units (`ShiftTimesIsShift`). */
  lemma {:induction false} PanPresses(variant: Variant, s: Session, key: int, dx: real, dy: real, n: nat)
    requires Decode(variant, key) == Pan(dx, dy)
    ensures Replay(variant, s, Presses(key, n)) == s.(view := ShiftTimes(s.view, dx, dy, n))
    ensures Replay(variant, s, Presses(key, n)).view == Shift(s.view, n as real * dx, n as real * dy)
  {
    if n > 0 {
      PanPresses(variant, s, key, dx, dy, n - 1);
      PressStep(variant, s, key, n);
      PanKeyStep(variant, Replay(variant, s, Presses(key, n - 1)), key, dx, dy);
    }
    ShiftTimesIsShift(s.view, dx, dy, n);
  }

  /** A pan key pans the view by its units and changes nothing else. */
  lemma PanKeyStep(variant: Variant, t: Session, key: int, dx: real, dy: real)
    requires Decode(variant, key) == Pan(dx, dy)
    ensures HandleKey(variant, t, key) == t.(view := Shift(t.view, dx, dy))
  {
  }

  /** `n` presses of a key are `n - 1` presses followed by one more. */
  lemma PressStep(variant: Variant, s: Session, key: int, n: nat)
    requires 0 < n
    ensures Replay(variant, s, Presses(key, n))
         == HandleKey(variant, Replay(variant, s, Presses(key, n - 1)), key)
  {
    assert Presses(key, n)[..n - 1] == Presses(key, n - 1);
  }

  /** Where the loop stops reading `input`: the position of the first `q`,
      or the end of the input when there is none. */
  function QuitIndex(input: seq<int>): (n: nat)
    ensures n <= |input|
    ensures forall j :: 0 <= j < n ==> input[j] != QuitKey
    ensures n < |input| ==> input[n] == QuitKey
  {
    if |input| == 0 then 0
    else if input[0] == QuitKey then 0
    else 1 + QuitIndex(input[1..])
  }

  /** `QuitIndex` is the end of the input exactly when no `q` occurs. */
  lemma QuitIndexEnd(input: seq<int>)
    ensures QuitIndex(input) == |input| <==> QuitKey !in input
  {
    var n := QuitIndex(input);
    if n < |input| {
      assert input[n] == QuitKey;
    } else {
      assert forall x :: x in input ==> exists j :: 0 <= j < n && input[j] == x;
    }
  }

  /** The main loop: `key` starts as 0 and is handled before the first read;
      then each key read is handled and a frame drawn, until `q` is read.
      `q` itself is never handled. `input` holds the keys returned by the
      main loop's own `getch`, in order; keys read by the expression prompt
      of `f` or by the help window of `m` are not among them. `frames` are
      the states each drawn frame shows, and `quit` says whether the loop
      ended (rather than the input running out). */
  method Run(variant: Variant, s: Session, input: seq<int>) returns (frames: seq<Session>, quit: bool)
    ensures quit <==> QuitKey in input
    ensures |frames| == QuitIndex(input) + 1
    ensures frames[0] == s
    ensures forall j :: 0 <= j < |frames| ==> frames[j] == Replay(variant, s, input[..j])
    ensures Valid(s.view) ==> forall j :: 0 <= j < |frames| ==> Valid(frames[j].view)
  {
    frames := [HandleKey(variant, s, 0)];
    var i := 0;
    while i < |input| && input[i] != QuitKey
      invariant 0 <= i <= |input|
      invariant QuitKey !in input[..i]
      invariant |frames| == i + 1
      invariant FramesReplay(variant, s, input, frames)
    {
      FramesExtend(variant, s, input, frames);
      NoQuitExtend(input, i);
      frames := frames + [HandleKey(variant, frames[i], input[i])];
      i := i + 1;
    }
    quit := i < |input|;
    QuitIndexAt(input, i);
    ReplayKeepsValid(variant, s, input, frames);
  }

  /** Frame `j` shows the session after the first `j` keys. */
  predicate FramesReplay(variant: Variant, s: Session, input: seq<int>, frames: seq<Session>)
    requires |frames| <= |input| + 1
  {
    forall j :: 0 <= j < |frames| ==> frames[j] == Replay(variant, s, input[..j])
  }

  /** Drawing one more frame, for the next key, keeps every frame a replay. */
  lemma FramesExtend(variant: Variant, s: Session, input: seq<int>, frames: seq<Session>)
    requires 0 < |frames| <= |input| && FramesReplay(variant, s, input, frames)
    ensures FramesReplay(variant, s, input, frames + [HandleKey(variant, frames[|frames| - 1], input[|frames| - 1])])
  {
    var i := |frames| - 1;
    var more := frames + [HandleKey(variant, frames[i], input[i])];
    ReplayStep(variant, s, input, i);
    forall j | 0 <= j < |more|
      ensures more[j] == Replay(variant, s, input[..j])
    {
      if j < |frames| {
        assert more[j] == frames[j];
      }
    }
  }

  /** A key other than `q` extends a `q`-free prefix. */
  lemma NoQuitExtend(input: seq<int>, i: nat)
    requires i < |input| && QuitKey !in input[..i] && input[i] != QuitKey
    ensures QuitKey !in input[..i + 1]
  {
    assert input[..i + 1] == input[..i] + [input[i]];
  }

  /** Handling one more key extends the replay by that key. */
  lemma ReplayStep(variant: Variant, s: Session, input: seq<int>, i: nat)
    requires i < |input|
    ensures Replay(variant, s, input[..i + 1]) == HandleKey(variant, Replay(variant, s, input[..i]), input[i])
    ensures input[..i + 1] == input[..i] + [input[i]]
  {
    assert input[..i + 1][..i] == input[..i];
  }

  /** The loop stops at the first `q`, or at the end of the input; it has
      read a `q` exactly when the input holds one. */
  lemma QuitIndexAt(input: seq<int>, i: nat)
    requires i <= |input| && QuitKey !in input[..i]
    requires i < |input| ==> input[i] == QuitKey
    ensures i == QuitIndex(input)
    ensures i < |input| <==> QuitKey in input
  {
    assert forall j :: 0 <= j < i ==> input[..i][j] == input[j];
    QuitIndexEnd(input);
  }

  /** Every replayed state of a valid session is valid. */
  lemma ReplayKeepsValid(variant: Variant, s: Session, input: seq<int>, frames: seq<Session>)
    requires |frames| <= |input| + 1 && FramesReplay(variant, s, input, frames)
    ensures Valid(s.view) ==> forall j :: 0 <= j < |frames| ==> Valid(frames[j].view)
  {
  }

  /** `expression_validate` / `validate_expression`: prompts for an
      expression, and prompts again for as long as it does not compile.
      `compiles[i]` says whether the text typed at prompt `i` compiles; the
      source keeps prompting forever when none does, so one must. Every
      prompt restores the view, so the result is the restored view however
      many prompts it took. */
  method ValidateExpression(v: Viewport, compiles: seq<bool>) returns (w: Viewport, prompts: nat)
    requires true in compiles
    ensures 1 <= prompts <= |compiles| && compiles[prompts - 1]
    ensures forall j :: 0 <= j < prompts - 1 ==> !compiles[j]
    ensures w == Restore(v)
  {
    w := Restore(v);
    prompts := 1;
    while !compiles[prompts - 1]
      invariant 1 <= prompts <= |compiles|
      invariant true in compiles[prompts - 1..]
      invariant forall j :: 0 <= j < prompts - 1 ==> !compiles[j]
      invariant w == Restore(v)
      decreases |compiles| - prompts
    {
      assert compiles[prompts - 1..] == [compiles[prompts - 1]] + compiles[prompts..];
      w := Restore(w);
      prompts := prompts + 1;
    }
  }
}

=== FILE: mapper.dfy ===
/**
  The coordinate mapper: the one affine map the plotter uses for every
  conversion between math space and grid space, and the width of one grid
  cell in math space.
 */
module Mapper {

  /** The affine map carrying `omin` to `nmin` and `omax` to `nmax`.
      Passing `nmin > nmax` flips direction, which is how the y axis is drawn
      with row 0 at the top. The source divides by `omax - omin`, so a
      degenerate source range is excluded. */
  function Scale(val: real, omin: real, omax: real, nmin: real, nmax: real): (r: real)
    requires omin != omax
    ensures (r - nmin) * (omax - omin) == (val - omin) * (nmax - nmin)
  {
    var s := (val - omin) / (omax - omin);
    assert s * (omax - omin) == val - omin;
    s * (nmax - nmin) + nmin
  }

  /** The two ends of the source range land on the two ends of the target
      range. */
  lemma ScaleEndpoints(omin: real, omax: real, nmin: real, nmax: real)
    requires omin != omax
    ensures Scale(omin, omin, omax, nmin, nmax) == nmin
    ensures Scale(omax, omin, omax, nmin, nmax) == nmax
  {
    var a := Scale(omin, omin, omax, nmin, nmax);
    var b := Scale(omax, omin, omax, nmin, nmax);
    assert (a - nmin) * (omax - omin) == 0.0;
    assert (b - nmax) * (omax - omin) == 0.0 by {
      assert (b - nmin) * (omax - omin) == (omax - omin) * (nmax - nmin);
    }
  }

  /** Mapping a value there and back with the ranges swapped returns it, as
      long as neither range is degenerate. */
  lemma ScaleInverse(val: real, omin: real, omax: real, nmin: real, nmax: real)
    requires omin != omax && nmin != nmax
    ensures Scale(Scale(val, omin, omax, nmin, nmax), nmin, nmax, omin, omax) == val
  {
    var g := Scale(val, omin, omax, nmin, nmax);
    var back := Scale(g, nmin, nmax, omin, omax);
    // (back - omin) * (nmax - nmin) == (g - nmin) * (omax - omin)
    //                               == (val - omin) * (nmax - nmin)
    assert (back - omin) * (nmax - nmin) == (val - omin) * (nmax - nmin);
    CancelFactor(back - omin, val - omin, nmax - nmin);
  }

  /** A non-zero factor can be cancelled from both sides of an equation. */
  lemma CancelFactor(a: real, b: real, c: real)
    requires c != 0.0 && a * c == b * c
    ensures a == b
  {
    assert (a - b) * c == 0.0;
  }

  /** With a non-degenerate increasing source range the map is strictly
      monotone: increasing when `nmin < nmax` and decreasing when
      `nmin > nmax` (the y axis, where a larger value is a smaller row). */
  lemma ScaleMonotone(a: real, b: real, omin: real, omax: real, nmin: real, nmax: real)
    requires omin < omax && a < b
    ensures nmin < nmax ==> Scale(a, omin, omax, nmin, nmax) < Scale(b, omin, omax, nmin, nmax)
    ensures nmin > nmax ==> Scale(a, omin, omax, nmin, nmax) > Scale(b, omin, omax, nmin, nmax)
  {
    var ra := Scale(a, omin, omax, nmin, nmax);
    var rb := Scale(b, omin, omax, nmin, nmax);
    assert (rb - ra) * (omax - omin) == (b - a) * (nmax - nmin);
    ProductSign(b - a, nmax - nmin);
    ProductSign(rb - ra, omax - omin);
  }

  /** The sign of a product follows from the signs of its factors, and a
      positive factor tells the sign of the other one. */
  lemma ProductSign(x: real, c: real)
    ensures 0.0 < x && 0.0 < c ==> 0.0 < x * c
    ensures 0.0 < x && c < 0.0 ==> x * c < 0.0
    ensures 0.0 < c ==> (0.0 < x * c <==> 0.0 < x) && (x * c < 0.0 <==> x < 0.0)
    ensures x * c == 0.0 <==> x == 0.0 || c == 0.0
  {
  }

  /** For an increasing target range, a value lies in the source range exactly
      when its image lies in the target range. */
  lemma ScaleWithin(val: real, omin: real, omax: real, nmin: real, nmax: real)
    requires omin < omax && nmin < nmax
    ensures omin <= val <= omax <==> nmin <= Scale(val, omin, omax, nmin, nmax) <= nmax
  {
    var r := Scale(val, omin, omax, nmin, nmax);
    ScaleEndpoints(omin, omax, nmin, nmax);
    if val < omin {
      ScaleMonotone(val, omin, omin, omax, nmin, nmax);
    } else if omax < val {
      ScaleMonotone(omax, val, omin, omax, nmin, nmax);
    } else {
      if omin < val { ScaleMonotone(omin, val, omin, omax, nmin, nmax); }
      if val < omax { ScaleMonotone(val, omax, omin, omax, nmin, nmax); }
    }
  }

  /** The same for a decreasing target range (the row axis, `rows` down to 0). */
  lemma ScaleWithinFlipped(val: real, omin: real, omax: real, nmin: real, nmax: real)
    requires omin < omax && nmax < nmin
    ensures omin <= val <= omax <==> nmax <= Scale(val, omin, omax, nmin, nmax) <= nmin
  {
    ScaleEndpoints(omin, omax, nmin, nmax);
    if val < omin {
      ScaleMonotone(val, omin, omin, omax, nmin, nmax);
    } else if omax < val {
      ScaleMonotone(omax, val, omin, omax, nmin, nmax);
    } else {
      if omin < val { ScaleMonotone(omin, val, omin, omax, nmin, nmax); }
      if val < omax { ScaleMonotone(val, omax, omin, omax, nmin, nmax); }
    }
  }

  /** Mapping a zoom factor from the range [1, 0] onto [bound, centre] is
      interpolation: the factor weighs the bound and its complement the
      centre. Factor 1 keeps the bound, factor 0 collapses it onto the centre. */
  lemma ScaleTowardCentre(factor: real, bound: real, centre: real)
    ensures Scale(factor, 1.0, 0.0, bound, centre) == factor * bound + (1.0 - factor) * centre
  {
    var r := Scale(factor, 1.0, 0.0, bound, centre);
    assert (r - bound) * (0.0 - 1.0) == (factor - 1.0) * (centre - bound);
  }

  /** The width of one grid cell when `cells` cells cover [lo, hi]; the extra
      one in the divisor leaves half a cell of margin at each edge. */
  function Step(lo: real, hi: real, cells: nat): (r: real)
    ensures r * (cells as real + 1.0) == hi - lo
    ensures lo < hi ==> 0.0 < r <= hi - lo
    ensures lo == hi ==> r == 0.0
    ensures hi < lo ==> hi - lo <= r < 0.0
  {
    (hi - lo) / (cells as real + 1.0)
  }
}

=== FILE: plane.dfy ===
/**
  The viewport and the operations that move it: initialisation, restoring the
  default view, panning and zooming, and the per-cell step used by the
  renderer. The three versions of the program share this logic; the one place
  where they differ (the single-file program's vertical step) is selected by
  `Variant`.
 */
module Plane {
  import opened Constants
  import opened Mapper

  /** Which version of the program is modelled: the single-file C program,
      the C program split into `main.c`/`plane.c`, or the C++ `Plane` class. */
  datatype Variant = SingleFile | SplitC | ClassCpp

  /** The visible math-space rectangle, the tick intervals, and the grid size
      (`xmaxs` columns and `ymaxs` rows in the source). */
  datatype Viewport = Viewport(
    xmin: real, xmax: real,
    ymin: real, ymax: real,
    xscale: real, yscale: real,
    columns: nat, rows: nat)

  /** The invariant the program relies on: both ranges are proper intervals
      and both tick intervals are positive. */
  predicate Valid(v: Viewport) {
    v.xmin < v.xmax && v.ymin < v.ymax && 0.0 < v.xscale && 0.0 < v.yscale
  }

  /** The default window and ticks, keeping the grid size of `v`. */
  predicate IsDefaultView(v: Viewport) {
    && v.xmin == XMinPlane && v.xmax == XMaxPlane
    && v.ymin == YMinPlane && v.ymax == YMaxPlane
    && v.xscale == XScalePlane && v.yscale == YScalePlane
  }

  function XSpan(v: Viewport): real { v.xmax - v.xmin }
  function YSpan(v: Viewport): real { v.ymax - v.ymin }

  /** True when `w` has the same grid size as `v`. */
  predicate SameGrid(v: Viewport, w: Viewport) {
    v.columns == w.columns && v.rows == w.rows
  }

  /** `plane_init`: the default window together with the size of the screen. */
  function Init(columns: nat, rows: nat): (v: Viewport)
    ensures IsDefaultView(v) && Valid(v)
    ensures v.columns == columns && v.rows == rows
  {
    DefaultWindow();
    Viewport(XMinPlane, XMaxPlane, YMinPlane, YMaxPlane, XScalePlane, YScalePlane, columns, rows)
  }

  /** `zoom_restore` / `restore_zoom`: back to the default window and ticks;
      the grid size is untouched. */
  function Restore(v: Viewport): (r: Viewport)
    ensures IsDefaultView(r) && Valid(r)
    ensures SameGrid(r, v)
  {
    v.(xmin := XMinPlane, xmax := XMaxPlane,
       ymin := YMinPlane, ymax := YMaxPlane,
       xscale := XScalePlane, yscale := YScalePlane)
  }

  /** Restoring twice is restoring once. */
  lemma RestoreIdempotent(v: Viewport)
    ensures Restore(Restore(v)) == Restore(v)
  {
  }

  /** The restored view forgets everything but the grid size: two viewports
      with the same grid restore to the same view. */
  lemma RestoreForgetsBounds(v: Viewport, w: Viewport)
    ensures SameGrid(v, w) <==> Restore(v) == Restore(w)
  {
  }

  /** `plane_init` sets exactly the bounds and ticks `zoom_restore` sets, so
      restoring right after initialising (as `main` does) changes nothing. */
  lemma InitIsRestore(v: Viewport)
    ensures Init(v.columns, v.rows) == Restore(v)
    ensures Restore(Init(v.columns, v.rows)) == Init(v.columns, v.rows)
  {
  }

  /** `plane_shift`: pans by `xshift` sixteenths of the x span and `yshift`
      sixteenths of the y span. Both bounds of an axis move by the same
      amount, so the spans and everything else are unchanged. */
  function Shift(v: Viewport, xshift: real, yshift: real): (r: Viewport)
    ensures XSpan(r) == XSpan(v) && YSpan(r) == YSpan(v)
    ensures 16.0 * (r.xmin - v.xmin) == xshift * XSpan(v)
    ensures 16.0 * (r.ymin - v.ymin) == yshift * YSpan(v)
    ensures r.xscale == v.xscale && r.yscale == v.yscale && SameGrid(r, v)
    ensures xshift == 0.0 ==> r.xmin == v.xmin && r.xmax == v.xmax
    ensures yshift == 0.0 ==> r.ymin == v.ymin && r.ymax == v.ymax
    ensures Valid(v) ==> Valid(r)
  {
    var dx := xshift * ((v.xmax - v.xmin) / 16.0);
    var dy := yshift * ((v.ymax - v.ymin) / 16.0);
    v.(xmin := v.xmin + dx, xmax := v.xmax + dx,
       ymin := v.ymin + dy, ymax := v.ymax + dy)
  }

  /** Panning back by the same number of units undoes a pan exactly (over
      the reals): the span, and therefore the step, did not change. */
  lemma ShiftUndo(v: Viewport, xshift: real, yshift: real)
    ensures Shift(Shift(v, xshift, yshift), -xshift, -yshift) == v
  {
  }

  /** Two pans add up to one pan by the summed units. */
  lemma ShiftCompose(v: Viewport, a: real, b: real, c: real, d: real)
    ensures Shift(Shift(v, a, b), c, d) == Shift(v, a + c, b + d)
  {
    var w := Shift(v, a, b);
    var u := Shift(w, c, d);
    var z := Shift(v, a + c, b + d);
    assert XSpan(w) == XSpan(v) && YSpan(w) == YSpan(v);
    assert 16.0 * (u.xmin - v.xmin) == (a + c) * XSpan(v);
    assert 16.0 * (u.ymin - v.ymin) == (a + c - a) * 0.0 + (b + d) * YSpan(v);
  }

  /** A pan by zero units changes nothing. */
  lemma ShiftZero(v: Viewport)
    ensures Shift(v, 0.0, 0.0) == v
  {
  }

  /** `n` pans by the same units in a row. */
  function ShiftTimes(v: Viewport, dx: real, dy: real, n: nat): (r: Viewport)
    ensures SameGrid(r, v) && XSpan(r) == XSpan(v) && YSpan(r) == YSpan(v)
  {
    if n == 0 then v else Shift(ShiftTimes(v, dx, dy, n - 1), dx, dy)
  }

  /** Pans accumulate linearly: `n` pans by (dx, dy) are one pan by
      (n dx, n dy), because no pan changes the span the next one scales by. */
  lemma {:induction false} ShiftTimesIsShift(v: Viewport, dx: real, dy: real, n: nat)
    ensures ShiftTimes(v, dx, dy, n) == Shift(v, Repeat(n, dx), Repeat(n, dy))
    ensures ShiftTimes(v, dx, dy, n) == Shift(v, n as real * dx, n as real * dy)
  {
    if n == 0 {
      ShiftZero(v);
    } else {
      ShiftTimesIsShift(v, dx, dy, n - 1);
      ShiftCompose(v, Repeat(n - 1, dx), Repeat(n - 1, dy), dx, dy);
    }
    RepeatIsProduct(n, dx);
    RepeatIsProduct(n, dy);
    ShiftCongruent(v, Repeat(n, dx), Repeat(n, dy), n as real * dx, n as real * dy);
  }

  /** `d` added to itself `n` times. */
  function Repeat(n: nat, d: real): real
  {
    if n == 0 then 0.0 else Repeat(n - 1, d) + d
  }

  /** Repeated addition is multiplication. */
  lemma {:induction false} RepeatIsProduct(n: nat, d: real)
    ensures Repeat(n, d) == n as real * d
  {
    if n > 0 {
      RepeatIsProduct(n - 1, d);
      assert (n - 1) as real * d + d == n as real * d;
    }
  }

  /** Pans by equal units give equal views. */
  lemma ShiftCongruent(v: Viewport, a: real, b: real, c: real, d: real)
    requires a == c && b == d
    ensures Shift(v, a, b) == Shift(v, c, d)
  {
  }

  /** The centre `zoom_handle` contracts the x range toward. The source
      averages `xmin` with `ymax` (not with `xmax`); this is kept as written. */
  function ZoomXCentre(v: Viewport): real { (v.xmin + v.ymax) / 2.0 }

  /** The centre the y range contracts toward: the true y midpoint. */
  function ZoomYCentre(v: Viewport): real { (v.ymin + v.ymax) / 2.0 }

  /** `zoom_handle` / `handle_zoom`: every bound is moved toward its centre by
      mapping `factor` from [1, 0] onto [bound, centre]. Each distance to the
      centre, and so each span, is multiplied by `factor`. */
  function Zoom(v: Viewport, factor: real): (r: Viewport)
    ensures r.xmin - ZoomXCentre(v) == factor * (v.xmin - ZoomXCentre(v))
    ensures r.xmax - ZoomXCentre(v) == factor * (v.xmax - ZoomXCentre(v))
    ensures r.ymin - ZoomYCentre(v) == factor * (v.ymin - ZoomYCentre(v))
    ensures r.ymax - ZoomYCentre(v) == factor * (v.ymax - ZoomYCentre(v))
    ensures XSpan(r) == factor * XSpan(v) && YSpan(r) == factor * YSpan(v)
    ensures ZoomYCentre(r) == ZoomYCentre(v)
    ensures r.xscale == v.xscale && r.yscale == v.yscale && SameGrid(r, v)
    ensures Valid(v) && 0.0 < factor ==> Valid(r)
  {
    var xc := ZoomXCentre(v);
    var yc := ZoomYCentre(v);
    ScaleTowardCentre(factor, v.xmin, xc);
    ScaleTowardCentre(factor, v.xmax, xc);
    ScaleTowardCentre(factor, v.ymin, yc);
    ScaleTowardCentre(factor, v.ymax, yc);
    var r := v.(xmin := Scale(factor, 1.0, 0.0, v.xmin, xc),
                xmax := Scale(factor, 1.0, 0.0, v.xmax, xc),
                ymin := Scale(factor, 1.0, 0.0, v.ymin, yc),
                ymax := Scale(factor, 1.0, 0.0, v.ymax, yc));
    assert XSpan(r) == factor * XSpan(v);
    assert YSpan(r) == factor * YSpan(v);
    assert Valid(v) && 0.0 < factor ==> Valid(r) by {
      if Valid(v) && 0.0 < factor {
        assert factor * XSpan(v) > 0.0 && factor * YSpan(v) > 0.0;
      }
    }
    r
  }

  /** Zooming by a factor of 1 changes nothing. */
  lemma ZoomIdentity(v: Viewport)
    ensures Zoom(v, 1.0) == v
  {
    var r := Zoom(v, 1.0);
    assert r.xmin == v.xmin && r.xmax == v.xmax;
    assert r.ymin == v.ymin && r.ymax == v.ymax;
  }

  /** Zooming in and then out (or the reverse) restores the y range exactly:
      its centre is fixed and the two factors multiply to one. */
  lemma ZoomInOutRestoresY(v: Viewport, factor: real)
    requires factor != 0.0
    ensures Zoom(Zoom(v, factor), 1.0 / factor).ymin == v.ymin
    ensures Zoom(Zoom(v, factor), 1.0 / factor).ymax == v.ymax
  {
    var w := Zoom(v, factor);
    var u := Zoom(w, 1.0 / factor);
    var c := ZoomYCentre(v);
    assert ZoomYCentre(w) == c;
    assert u.ymin - c == (1.0 / factor) * (factor * (v.ymin - c));
    assert u.ymax - c == (1.0 / factor) * (factor * (v.ymax - c));
  }

  /** The x midpoint survives a zoom exactly when the factor is 1 or the top
      of the x range equals the top of the y range: only then is the centre
      `zoom_handle` uses the true x midpoint. */
  lemma ZoomXMidpointIff(v: Viewport, factor: real)
    ensures (Zoom(v, factor).xmin + Zoom(v, factor).xmax == v.xmin + v.xmax)
        <==> (factor == 1.0 || v.xmax == v.ymax)
  {
    var r := Zoom(v, factor);
    var xc := ZoomXCentre(v);
    MidpointMoves(v.xmin, v.xmax, r.xmin, r.xmax, xc, factor);
    assert v.xmin + v.xmax - 2.0 * xc == v.xmax - v.ymax;
    ProductSign(factor - 1.0, v.xmax - v.ymax);
  }

  /** When both ends of [a, b] move toward `c` by the same factor, the sum of
      the ends moves by `(f - 1)` times the offset of the midpoint from `c`. */
  lemma MidpointMoves(a: real, b: real, a1: real, b1: real, c: real, f: real)
    requires a1 - c == f * (a - c) && b1 - c == f * (b - c)
    ensures a1 + b1 - (a + b) == (f - 1.0) * (a + b - 2.0 * c)
  {
  }

  /** `b` raised to the `n`th power. */
  function Pow(b: real, n: nat): real
  {
    if n == 0 then 1.0 else b * Pow(b, n - 1)
  }

  /** `n` zooms by the same factor in a row. Zooms compound geometrically:
      both spans end up `factor^n` times the original. */
  function ZoomTimes(v: Viewport, factor: real, n: nat): (r: Viewport)
    ensures SameGrid(r, v)
    ensures XSpan(r) == Pow(factor, n) * XSpan(v)
    ensures YSpan(r) == Pow(factor, n) * YSpan(v)
  {
    if n == 0 then v
    else
      var w := ZoomTimes(v, factor, n - 1);
      ZoomRescales(v, w, factor, n);
      Zoom(w, factor)
  }

  /** One more zoom multiplies the accumulated factor once more. */
  lemma ZoomRescales(v: Viewport, w: Viewport, factor: real, n: nat)
    requires 0 < n
    requires XSpan(w) == Pow(factor, n - 1) * XSpan(v) && YSpan(w) == Pow(factor, n - 1) * YSpan(v)
    ensures XSpan(Zoom(w, factor)) == Pow(factor, n) * XSpan(v)
    ensures YSpan(Zoom(w, factor)) == Pow(factor, n) * YSpan(v)
  {
    var p := Pow(factor, n - 1);
    assert Pow(factor, n) == factor * p;
    ZoomSpans(w, factor);
    Associate(factor, p, XSpan(v));
    Associate(factor, p, YSpan(v));
  }

  /** Real multiplication regroups. */
  lemma Associate(a: real, b: real, c: real)
    ensures a * (b * c) == (a * b) * c
  {
  }

  /** One zoom scales both spans by its factor. */
  lemma ZoomSpans(v: Viewport, factor: real)
    ensures XSpan(Zoom(v, factor)) == factor * XSpan(v)
    ensures YSpan(Zoom(v, factor)) == factor * YSpan(v)
  {
  }

  /** The horizontal step: the math-space width of one column. */
  function XStep(v: Viewport): (r: real)
    ensures r * (v.columns as real + 1.0) == XSpan(v)
    ensures v.xmin < v.xmax ==> 0.0 < r
  {
    Step(v.xmin, v.xmax, v.columns)
  }

  /** The vertical step. The single-file program's `PLANE_YSTEP` divides
      `xmax - ymin` instead of `ymax - ymin`; the split C `get_step` and the
      C++ `getstep` divide the y span. */
  function YStep(variant: Variant, v: Viewport): (r: real)
    ensures variant == SingleFile ==> r * (v.rows as real + 1.0) == v.xmax - v.ymin
    ensures variant != SingleFile ==> r * (v.rows as real + 1.0) == YSpan(v)
    ensures variant != SingleFile && v.ymin < v.ymax ==> 0.0 < r
  {
    if variant == SingleFile then Step(v.ymin, v.xmax, v.rows) else Step(v.ymin, v.ymax, v.rows)
  }

  /** On the default window the single-file program's vertical step is one and
      a half times the step of the other two versions (3 pi against 2 pi). */
  lemma SingleFileYStepOnDefault(v: Viewport)
    ensures YStep(SingleFile, Restore(v)) == 1.5 * YStep(SplitC, Restore(v))
    ensures YStep(SplitC, Restore(v)) == YStep(ClassCpp, Restore(v))
  {
    var w := Restore(v);
    var n := w.rows as real + 1.0;
    assert YStep(SingleFile, w) * n == 3.0 * Pi;
    assert YStep(SplitC, w) * n == 2.0 * Pi;
    CancelFactor(YStep(SingleFile, w), 1.5 * YStep(SplitC, w), n);
  }
}

=== FILE: raster.dfy ===
/**
  The geometry of one frame: where the origin lands on the grid, which axis
  cells are tick marks, the glyphs the axes write, and the points sampled
  and plotted for the function (and, in the single-file program, its
  derivative). Drawing is modelled as the sequence of cells written, in
  order; a later cell at the same position overwrites an earlier one.
  Grid positions stay real: the truncation to integers and the clipping done
  by the terminal library are not modelled.
 */
module Raster {
  import opened Mapper
  import opened Plane
  import opened Controls

  datatype Glyph = Plus | HLine | VLine

  /** One glyph written at a (row, column) position. */
  datatype Cell = Cell(row: real, col: real, glyph: Glyph)

  datatype Option<T> = None | Some(value: T)

  /** A plotted point: the value of the function and where it is drawn. */
  datatype Point = Point(value: real, col: real, row: real)

  /** One sample of the curve: its x, the point of the function, and the point
      of the derivative when the derivative is drawn. */
  datatype Plot = Plot(x: real, curve: Point, derivative: Option<Point>)

  function Abs(x: real): real { if x < 0.0 then -x else x }

  /** Rounding toward zero, as C converts a quotient to an integer. */
  function Trunc(q: real): (n: int)
    ensures 0.0 <= q ==> 0 <= n && n as real <= q < n as real + 1.0
    ensures q <= 0.0 ==> n <= 0 && n as real - 1.0 < q <= n as real
  {
    if 0.0 <= q then q.Floor else -((-q).Floor)
  }

  /** Rounding toward zero commutes with negation. */
  lemma TruncOdd(q: real)
    ensures Trunc(-q) == -Trunc(q)
  {
    if q == 0.0 {
    } else if 0.0 < q {
      assert -q < 0.0;
    }
  }

  /** C's `fmod`: what is left of `x` after taking away the multiple of `y`
      whose quotient is rounded toward zero. It has the sign of `x` and is
      smaller than `y` in magnitude. */
  function FMod(x: real, y: real): (r: real)
    requires y != 0.0
    ensures exists n: int :: x == Multiple(n, y) + r
    ensures Abs(r) < Abs(y)
    ensures 0.0 <= x ==> 0.0 <= r
    ensures x <= 0.0 ==> r <= 0.0
  {
    var q := x / y;
    var n := Trunc(q);
    var d := q - n as real;
    assert x - n as real * y == d * y by {
      assert x == q * y;
    }
    QuotientSign(x, y);
    ScaledFraction(d, y);
    var r := x - n as real * y;
    assert x == Multiple(n, y) + r;
    r
  }

  /** The `n`th multiple of `y`. */
  function Multiple(n: int, y: real): real { n as real * y }

  /** The value of `fmod` with its quotient written out. */
  lemma FModValue(x: real, y: real)
    requires y != 0.0
    ensures FMod(x, y) == x - Trunc(x / y) as real * y
  {
  }

  /** The quotient `x / y` is non-negative when `x` and `y` agree in sign and
      non-positive when they do not. */
  lemma QuotientSign(x: real, y: real)
    requires y != 0.0
    ensures (0.0 <= x && 0.0 < y) || (x <= 0.0 && y < 0.0) ==> 0.0 <= x / y
    ensures (0.0 <= x && y < 0.0) || (x <= 0.0 && 0.0 < y) ==> x / y <= 0.0
  {
    assert x / y * y == x;
  }

  /** A fraction `d` of `y`, with `|d| < 1`, is smaller than `y` and has the
      sign of `d * y`. */
  lemma ScaledFraction(d: real, y: real)
    requires -1.0 < d < 1.0 && y != 0.0
    ensures Abs(d * y) < Abs(y)
    ensures (0.0 <= d && 0.0 < y) || (d <= 0.0 && y < 0.0) ==> 0.0 <= d * y
    ensures (0.0 <= d && y < 0.0) || (d <= 0.0 && 0.0 < y) ==> d * y <= 0.0
  {
    ProductSign(1.0 - d, y);
    ProductSign(1.0 + d, y);
    assert (1.0 - d) * y == y - d * y && (1.0 + d) * y == y + d * y;
    if 0.0 < y {
      assert -y < d * y < y;
    } else {
      assert y < d * y < -y;
    }
    if d < 0.0 {
      ProductSign(-d, y);
      assert (-d) * y == -(d * y);
    } else if 0.0 < d {
      ProductSign(d, y);
    }
  }

  /** `fmod` is odd in its first argument (unlike a floored remainder). */
  lemma FModOdd(x: real, y: real)
    requires y != 0.0
    ensures FMod(-x, y) == -FMod(x, y)
  {
    var t := Trunc(x / y);
    assert Trunc((-x) / y) == -t by {
      NegDiv(x, y);
      TruncOdd(x / y);
    }
    FModValue(x, y);
    FModValue(-x, y);
    NegatedRemainder(x, y, t as real);
  }

  /** Negating the dividend negates the quotient. */
  lemma NegDiv(x: real, y: real)
    requires y != 0.0
    ensures (-x) / y == -(x / y)
  {
  }

  /** Negating both the dividend and the quotient negates the remainder. */
  lemma NegatedRemainder(x: real, y: real, t: real)
    ensures -x - (-t) * y == -(x - t * y)
  {
  }

  /** A whole multiple of `y` leaves no remainder. */
  lemma FModOfMultiple(k: int, y: real)
    requires y != 0.0
    ensures FMod(k as real * y, y) == 0.0
  {
    DivCancel(k as real, y);
    assert Trunc(k as real) == k;
  }

  /** Dividing a multiple of `y` by `y` gives back the factor. */
  lemma DivCancel(a: real, y: real)
    requires y != 0.0
    ensures (a * y) / y == a
  {
  }

  /** The column test of `axes_draw`: a position is a tick when its value is
      within one step of the multiple of the tick interval whose quotient is
      rounded toward zero, measured with `fabs(fmod(...))` and a strict `<`.
      A step of zero or less marks nothing, and a step as wide as the
      interval marks everything. */
  function IsTick(value: real, scale: real, step: real): (b: bool)
    requires scale != 0.0
    ensures b <==> Abs(value - Multiple(Trunc(value / scale), scale)) < step
    ensures step <= 0.0 ==> !b
    ensures Abs(scale) <= step ==> b
  {
    FModValue(value, scale);
    Abs(FMod(value, scale)) < step
  }

  /** Every multiple of the tick interval is a tick when the step is positive,
      the test is symmetric about zero, and a step of zero or less marks
      nothing. */
  lemma TickRule(k: int, value: real, scale: real, step: real)
    requires scale != 0.0
    ensures 0.0 < step ==> IsTick(k as real * scale, scale, step)
    ensures IsTick(-value, scale, step) == IsTick(value, scale, step)
    ensures step <= 0.0 ==> !IsTick(value, scale, step)
  {
    FModOfMultiple(k, scale);
    FModOdd(value, scale);
  }

  /** The tick test on concrete numbers, with tick interval 1 and step 0.1:
      1.0 and 1.05 are ticks (remainders 0 and 0.05), 1.1 is not (0.1 is not
      strictly below the step), and neither is -0.95, whose `fmod` is -0.95
      (a floored remainder would give 0.05 and call it a tick). */
  lemma TickExamples()
    ensures IsTick(1.0, 1.0, 0.1)
    ensures IsTick(1.05, 1.0, 0.1)
    ensures !IsTick(1.1, 1.0, 0.1)
    ensures !IsTick(-0.95, 1.0, 0.1)
  {
    assert Trunc(1.0) == 1;
    assert Trunc(1.05) == 1;
    assert Trunc(1.1) == 1;
    assert Trunc(-0.95) == 0;
  }

  /** The column where the y axis is drawn: x = 0 mapped onto [0, columns]. */
  function OriginCol(v: Viewport): (c: real)
    requires v.xmin != v.xmax
    ensures c * XSpan(v) == -v.xmin * v.columns as real
  {
    Scale(0.0, v.xmin, v.xmax, 0.0, v.columns as real)
  }

  /** The row where the x axis is drawn: y = 0 mapped onto [rows, 0], so that
      larger y is higher on the screen. */
  function OriginRow(v: Viewport): (r: real)
    requires v.ymin != v.ymax
    ensures (r - v.rows as real) * YSpan(v) == v.ymin * v.rows as real
  {
    Scale(0.0, v.ymin, v.ymax, v.rows as real, 0.0)
  }

  /** The origin lies on the grid exactly when zero lies in the window. */
  lemma OriginOnGrid(v: Viewport)
    requires Valid(v)
    ensures 0 < v.columns ==> (0.0 <= OriginCol(v) <= v.columns as real <==> v.xmin <= 0.0 <= v.xmax)
    ensures 0 < v.rows ==> (0.0 <= OriginRow(v) <= v.rows as real <==> v.ymin <= 0.0 <= v.ymax)
  {
    if 0 < v.columns {
      ScaleWithin(0.0, v.xmin, v.xmax, 0.0, v.columns as real);
    }
    if 0 < v.rows {
      ScaleWithinFlipped(0.0, v.ymin, v.ymax, v.rows as real, 0.0);
    }
  }

  /** The default window is symmetric, so after a restore the origin is drawn
      in the middle of the grid; on an 80 by 24 screen that is column 40,
      row 12. */
  lemma RestoredOriginCentred(v: Viewport)
    ensures OriginCol(Restore(v)) == v.columns as real / 2.0
    ensures OriginRow(Restore(v)) == v.rows as real / 2.0
    ensures OriginCol(Init(80, 24)) == 40.0 && OriginRow(Init(80, 24)) == 12.0
  {
    Constants.DefaultWindow();
    MidpointOfSymmetric(Constants.XMaxPlane, v.columns as real, 0.0, v.columns as real);
    MidpointOfSymmetric(Constants.YMaxPlane, v.rows as real, v.rows as real, 0.0);
    MidpointOfSymmetric(Constants.XMaxPlane, 80.0, 0.0, 80.0);
    MidpointOfSymmetric(Constants.YMaxPlane, 24.0, 24.0, 0.0);
  }

  /** Zero, the middle of [-m, m], maps to the middle of the target range. */
  lemma MidpointOfSymmetric(m: real, n: real, nmin: real, nmax: real)
    requires 0.0 < m && nmin + nmax == n
    ensures Scale(0.0, -m, m, nmin, nmax) == n / 2.0
  {
    var r := Scale(0.0, -m, m, nmin, nmax);
    assert (r - nmin) * (2.0 * m) == m * (nmax - nmin);
    CancelFactor(r - nmin, (nmax - nmin) / 2.0, 2.0 * m);
  }

  /** What the axes need to be drawable: both ranges and both tick intervals
      are non-zero (the source divides by each of them). */
  predicate Drawable(v: Viewport) {
    v.xmin != v.xmax && v.ymin != v.ymax && v.xscale != 0.0 && v.yscale != 0.0
  }

  /** Grid index `i` as a position on the screen. */
  function GridPos(i: int): real { i as real }

  /** The math-space x of grid column `i`. */
  function ColumnX(v: Viewport, i: int): real { v.xmin + XStep(v) * i as real }

  /** The math-space y the source tests for grid row `i`. It counts from
      `ymin` although row 0 is the top of the screen; kept as written. */
  function RowY(variant: Variant, v: Viewport, i: int): real { v.ymin + YStep(variant, v) * i as real }

  /** Whether the version overdraws the origin with a plus after the axes:
      both C versions do, the C++ class does not. */
  predicate MarksOrigin(variant: Variant) { variant != ClassCpp }

  /** The cell the horizontal-axis walk writes for column `i`. */
  function HorizontalCell(v: Viewport, i: nat): Cell
    requires Drawable(v)
  {
    Cell(OriginRow(v), GridPos(i), if IsTick(ColumnX(v, i), v.xscale, XStep(v)) then Plus else HLine)
  }

  /** The cell the vertical-axis walk writes for row `i`. */
  function VerticalCell(variant: Variant, v: Viewport, i: nat): Cell
    requires Drawable(v)
  {
    Cell(GridPos(i), OriginCol(v), if IsTick(RowY(variant, v, i), v.yscale, YStep(variant, v)) then Plus else VLine)
  }

  /** Everything `axes_draw` / `draw_axes` writes, in order: one cell per
      column along the origin row, one cell per row down the origin column,
      and (in the C versions) a plus on the origin. For the single-file
      program this is the same counted walk with that program's steps; its
      own loops advance a fractional counter by the step instead. */
  function Axes(variant: Variant, v: Viewport): (cells: seq<Cell>)
    requires Drawable(v)
    ensures |cells| == v.columns + v.rows + (if MarksOrigin(variant) then 1 else 0)
    ensures forall i :: 0 <= i < v.columns ==>
      && cells[i].row == OriginRow(v) && cells[i].col == GridPos(i)
      && (cells[i].glyph == Plus <==> IsTick(ColumnX(v, i), v.xscale, XStep(v)))
      && cells[i].glyph != VLine
    ensures forall i :: 0 <= i < v.rows ==>
      && cells[v.columns + i].row == GridPos(i) && cells[v.columns + i].col == OriginCol(v)
      && (cells[v.columns + i].glyph == Plus <==> IsTick(RowY(variant, v, i), v.yscale, YStep(variant, v)))
      && cells[v.columns + i].glyph != HLine
    ensures MarksOrigin(variant) ==> cells[|cells| - 1] == Cell(OriginRow(v), OriginCol(v), Plus)
  {
    HorizontalAxis(v) + VerticalAxis(variant, v) + OriginMarker(variant, v)
  }

  /** The cells of the walk along the origin row. */
  function HorizontalAxis(v: Viewport): (cells: seq<Cell>)
    requires Drawable(v)
    ensures |cells| == v.columns
  {
    seq(v.columns, i requires 0 <= i => HorizontalCell(v, i))
  }

  /** The cells of the walk down the origin column. */
  function VerticalAxis(variant: Variant, v: Viewport): (cells: seq<Cell>)
    requires Drawable(v)
    ensures |cells| == v.rows
  {
    seq(v.rows, i requires 0 <= i => VerticalCell(variant, v, i))
  }

  /** The final plus on the origin, in the versions that draw it. */
  function OriginMarker(variant: Variant, v: Viewport): seq<Cell>
    requires Drawable(v)
  {
    if MarksOrigin(variant) then [Cell(OriginRow(v), OriginCol(v), Plus)] else []
  }

  /** `axes_draw` as the source writes it: two counted loops and the final
      plus. (The single-file program advances its counters by the step
      rather than by one and writes them truncated as positions; that
      variant of the loops is not modelled.) */
  method DrawAxes(variant: Variant, v: Viewport) returns (cells: seq<Cell>)
    requires Drawable(v)
    ensures cells == Axes(variant, v)
  {
    ghost var horizontal := HorizontalAxis(v);
    ghost var vertical := VerticalAxis(variant, v);
    cells := [];
    var i := 0;
    while i < v.columns
      invariant 0 <= i <= v.columns
      invariant cells == horizontal[..i]
    {
      PrefixStep(horizontal, i, HorizontalCell(v, i));
      cells := cells + [HorizontalCell(v, i)];
      i := i + 1;
    }
    assert cells == horizontal;
    var down := [];
    i := 0;
    while i < v.rows
      invariant 0 <= i <= v.rows
      invariant down == vertical[..i]
    {
      PrefixStep(vertical, i, VerticalCell(variant, v, i));
      down := down + [VerticalCell(variant, v, i)];
      i := i + 1;
    }
    assert down == vertical;
    cells := cells + down;
    if MarksOrigin(variant) {
      cells := cells + [Cell(OriginRow(v), OriginCol(v), Plus)];
    }
  }

  /** The single-file vertical step is `(xmax - ymin) / (rows + 1)`. Each
      press of `k` raises `ymin` by a sixteenth of the y span and leaves
      `xmax` alone, so from the starting window the step is zero after 24
      presses and negative after more. The single-file vertical axis loop
      adds this step to a `float` counter until the counter reaches `rows`;
      on a grid with at least one row, from that point on the counter never
      gets there, so the loop never ends. */
  lemma SingleFileStepVanishes(columns: nat, rows: nat, n: nat)
    ensures YStep(SingleFile, Replay(SingleFile, Start(columns, rows), Presses('k' as int, n)).view) <= 0.0 <==> 24 <= n
    ensures n == 24 ==> YStep(SingleFile, Replay(SingleFile, Start(columns, rows), Presses('k' as int, n)).view) == 0.0
    ensures 0 < rows && 24 <= n ==>
      WalkNeverEnds(YStep(SingleFile, Replay(SingleFile, Start(columns, rows), Presses('k' as int, n)).view), rows)
  {
    var s := Start(columns, rows);
    RaisePresses(s, 'k' as int, n);
    RaiseTimes(s.view, n);
    RaisedStep(s.view, n);
    if 0 < rows && 24 <= n {
      StalledWalk(YStep(SingleFile, Replay(SingleFile, s, Presses('k' as int, n)).view), rows);
    }
  }

  /** The counter of a walk `for (i = 0; i < limit; i += step)` stays below
      `limit` after every number of rounds, counted over the reals. */
  ghost predicate WalkNeverEnds(step: real, limit: nat) {
    forall i: nat :: Multiple(i, step) < limit as real
  }

  /** A step of zero or less never carries the counter up to a positive
      limit. */
  lemma StalledWalk(step: real, limit: nat)
    requires step <= 0.0 && 0 < limit
    ensures WalkNeverEnds(step, limit)
  {
    forall i: nat
      ensures Multiple(i, step) < limit as real
    {
      if 0 < i && step < 0.0 {
        ProductSign(i as real, step);
      }
    }
  }

  /** `n` presses of a key that raises the view by one unit are `n` raises. */
  lemma RaisePresses(s: Session, key: int, n: nat)
    requires Decode(SingleFile, key) == Pan(0.0, 1.0)
    ensures Replay(SingleFile, s, Presses(key, n)).view == ShiftTimes(s.view, 0.0, 1.0, n)
  {
    PanPresses(SingleFile, s, key, 0.0, 1.0, n);
  }

  /** `n` raises by one unit are one raise by `n` units. */
  lemma RaiseTimes(v: Viewport, n: nat)
    ensures ShiftTimes(v, 0.0, 1.0, n) == Shift(v, 0.0, n as real)
  {
    ShiftTimesIsShift(v, 0.0, 1.0, n);
    ShiftCongruent(v, n as real * 0.0, n as real * 1.0, 0.0, n as real);
  }

  /** Raising the default window by `n` units of `k` leaves `xmax` at 2 pi
      and puts `ymin` at (n / 8 - 1) pi, so the single-file vertical step
      times `8 (rows + 1)` is `(24 - n) pi`. */
  lemma RaisedStep(v: Viewport, n: nat)
    requires IsDefaultView(v)
    ensures YStep(SingleFile, Shift(v, 0.0, n as real)) <= 0.0 <==> 24 <= n
    ensures n == 24 ==> YStep(SingleFile, Shift(v, 0.0, n as real)) == 0.0
  {
    var w := Shift(v, 0.0, n as real);
    var t := YStep(SingleFile, w);
    var m := w.rows as real + 1.0;
    assert 16.0 * (w.ymin - Constants.YMinPlane) == n as real * (2.0 * Constants.Pi);
    assert t * m == Constants.XMaxPlane - w.ymin;
    StepSign(t, m, (24 - n) as real, Constants.Pi);
  }

  /** The sign of `t` follows the sign of `a` when `t * m * 8 == a * p` for
      positive `m` and `p`. */
  lemma StepSign(t: real, m: real, a: real, p: real)
    requires 0.0 < m && 0.0 < p && t * m * 8.0 == a * p
    ensures t <= 0.0 <==> a <= 0.0
    ensures t == 0.0 <==> a == 0.0
  {
    ProductSign(t, m);
    ProductSign(a, p);
  }

  /** A prefix grows by the next element. */
  lemma PrefixStep<T>(all: seq<T>, i: nat, next: T)
    requires i < |all| && all[i] == next
    ensures all[..i + 1] == all[..i] + [next]
  {
  }

  /** The glyph left at a position after writing `cells` in order: the last
      one written there, or nothing when none was. */
  function GlyphAt(cells: seq<Cell>, row: real, col: real): (g: Option<Glyph>)
    ensures g.None? <==> forall j :: 0 <= j < |cells| ==> !(cells[j].row == row && cells[j].col == col)
    ensures g.Some? ==> exists j :: LastWrite(cells, row, col, j) && cells[j] == Cell(row, col, g.value)
    decreases |cells|
  {
    if |cells| == 0 then None
    else
      var init, last := cells[..|cells| - 1], cells[|cells| - 1];
      assert cells == init + [last];
      if last.row == row && last.col == col then
        assert LastWrite(cells, row, col, |cells| - 1);
        Some(last.glyph)
      else
        var g := GlyphAt(init, row, col);
        if g.Some? then
          var j :| LastWrite(init, row, col, j) && init[j] == Cell(row, col, g.value);
          LastWriteExtend(init, last, row, col, j);
          g
        else
          assert forall j :: 0 <= j < |init| ==> init[j] == cells[j];
          g
  }

  /** Cell `j` writes at (`row`, `col`) and no later cell does. */
  predicate LastWrite(cells: seq<Cell>, row: real, col: real, j: int) {
    && 0 <= j < |cells| && cells[j].row == row && cells[j].col == col
    && forall k :: j < k < |cells| ==> !(cells[k].row == row && cells[k].col == col)
  }

  /** A last write stays the last one when a cell elsewhere is written. */
  lemma LastWriteExtend(cells: seq<Cell>, c: Cell, row: real, col: real, j: int)
    requires LastWrite(cells, row, col, j) && !(c.row == row && c.col == col)
    ensures LastWrite(cells + [c], row, col, j) && (cells + [c])[j] == cells[j]
  {
  }

  /** After the axes are drawn every column of the origin row and every row
      of the origin column holds an axis glyph, and in the C versions the
      origin itself shows a plus, whatever the walks wrote there. */
  lemma AxesCoverGrid(variant: Variant, v: Viewport)
    requires Drawable(v)
    ensures forall i :: 0 <= i < v.columns ==> GlyphAt(Axes(variant, v), OriginRow(v), GridPos(i)).Some?
    ensures forall i :: 0 <= i < v.rows ==> GlyphAt(Axes(variant, v), GridPos(i), OriginCol(v)).Some?
    ensures MarksOrigin(variant) ==> GlyphAt(Axes(variant, v), OriginRow(v), OriginCol(v)) == Some(Plus)
  {
    var cells := Axes(variant, v);
    forall i | 0 <= i < v.columns
      ensures GlyphAt(cells, OriginRow(v), GridPos(i)).Some?
    {
      assert cells[i].row == OriginRow(v) && cells[i].col == GridPos(i);
    }
    forall i | 0 <= i < v.rows
      ensures GlyphAt(cells, GridPos(i), OriginCol(v)).Some?
    {
      assert cells[v.columns + i].row == GridPos(i) && cells[v.columns + i].col == OriginCol(v);
    }
  }

  /** The math-space x of the `k`th sample: `graph_draw` starts at `xmin`
      and adds one step per sample. */
  function SampleX(v: Viewport, k: nat): (x: real)
    ensures (x - v.xmin) * (v.columns as real + 1.0) == k as real * XSpan(v)
  {
    var step := XStep(v);
    assert k as real * step * (v.columns as real + 1.0) == k as real * (step * (v.columns as real + 1.0));
    v.xmin + k as real * step
  }

  /** How many samples the loop `x <= xmax` takes over the reals: one per
      step from `xmin` up to and including `xmax` itself, i.e. `columns + 2`,
      and none for an inverted window. For an empty window the step is zero
      and the source loop never ends, so that window is excluded. */
  function SampleCount(v: Viewport): (n: nat)
    requires v.xmin != v.xmax
    ensures n == 0 <==> v.xmax < v.xmin
    ensures 0 < n ==> SampleX(v, n - 1) == v.xmax
  {
    if v.xmin < v.xmax then v.columns + 2 else 0
  }

  /** The loop test `x <= xmax` holds for sample `k` exactly while `k` is
      below `SampleCount`. */
  lemma SampleBound(v: Viewport, k: nat)
    requires v.xmin != v.xmax && k <= SampleCount(v)
    ensures SampleX(v, k) <= v.xmax <==> k < SampleCount(v)
  {
    var step := XStep(v);
    var n := v.columns as real + 1.0;
    if v.xmin < v.xmax {
      assert SampleX(v, k) - v.xmax == (k as real - n) * step;
      if k as real <= n {
        assert (k as real - n) * step <= 0.0;
      } else {
        assert (k as real - n) * step > 0.0;
      }
    }
  }

  /** Each sample is one step past the previous one. */
  lemma SampleNext(v: Viewport, k: nat)
    ensures SampleX(v, k + 1) == SampleX(v, k) + XStep(v)
  {
  }

  /** Over a valid window the samples start at `xmin`, end at `xmax`, rise
      strictly, and never leave [xmin, xmax]. */
  lemma SamplesSpanWindow(v: Viewport)
    requires Valid(v)
    ensures SampleCount(v) == v.columns + 2
    ensures SampleX(v, 0) == v.xmin && SampleX(v, v.columns + 1) == v.xmax
    ensures forall k: nat, l: nat :: k < l ==> SampleX(v, k) < SampleX(v, l)
    ensures forall k: nat :: k < SampleCount(v) ==> v.xmin <= SampleX(v, k) <= v.xmax
  {
    var step := XStep(v);
    forall k: nat, l: nat | k < l
      ensures SampleX(v, k) < SampleX(v, l)
    {
      assert SampleX(v, l) - SampleX(v, k) == (l - k) as real * step;
    }
    forall k: nat | k < SampleCount(v)
      ensures v.xmin <= SampleX(v, k) <= v.xmax
    {
      SampleBound(v, k);
      assert SampleX(v, k) == v.xmin + k as real * step;
      if 0 < k {
        ProductSign(k as real, step);
      }
    }
  }

  /** Where a value is plotted: `x` across [0, columns], `y` down [rows, 0].
      The column is `x`'s share of the x span, and the row is `rows` less
      `y`'s share of the y span. */
  function PlotAt(v: Viewport, x: real, y: real): (p: Point)
    requires v.xmin != v.xmax && v.ymin != v.ymax
    ensures p.value == y
    ensures p.col * XSpan(v) == (x - v.xmin) * v.columns as real
    ensures (p.row - v.rows as real) * YSpan(v) == -(y - v.ymin) * v.rows as real
  {
    Point(y, Scale(x, v.xmin, v.xmax, 0.0, v.columns as real), Scale(y, v.ymin, v.ymax, v.rows as real, 0.0))
  }

  /** Sample `k` is plotted in column `k * columns / (columns + 1)`,
      whatever value is plotted there. */
  lemma SampleColumnAt(v: Viewport, k: nat, y: real)
    requires v.xmin != v.xmax && v.ymin != v.ymax
    ensures PlotAt(v, SampleX(v, k), y).col * (v.columns as real + 1.0) == k as real * v.columns as real
  {
    var c := PlotAt(v, SampleX(v, k), y).col;
    var n := v.columns as real;
    var span := XSpan(v);
    assert c * span * (n + 1.0) == (SampleX(v, k) - v.xmin) * (n + 1.0) * n;
    assert c * span * (n + 1.0) == k as real * n * span;
    assert c * (n + 1.0) * span == k as real * n * span;
    CancelFactor(c * (n + 1.0), k as real * n, span);
  }

  /** The column sample `k` is plotted in is `k * columns / (columns + 1)`,
      so every sample lands in [0, columns]. */
  lemma SampleColumn(v: Viewport, k: nat)
    requires Valid(v) && k < SampleCount(v)
    ensures PlotAt(v, SampleX(v, k), 0.0).col * (v.columns as real + 1.0) == k as real * v.columns as real
    ensures 0.0 <= PlotAt(v, SampleX(v, k), 0.0).col <= v.columns as real
  {
    var c := PlotAt(v, SampleX(v, k), 0.0).col;
    var step := XStep(v);
    var n := v.columns as real;
    var span := XSpan(v);
    assert c * span == k as real * step * n;
    assert c * span * (n + 1.0) == k as real * n * span;
    CancelFactor(c * (n + 1.0), k as real * n, span);
    SamplesSpanWindow(v);
    ScaleWithin(SampleX(v, k), v.xmin, v.xmax, 0.0, n + 1.0);
    if 0 < v.columns {
      ScaleWithin(SampleX(v, k), v.xmin, v.xmax, 0.0, n);
    }
  }

  /** Whether the frame draws the derivative: only the single-file program
      does, and only while its flag is set. */
  predicate DerivativeShown(variant: Variant, s: Session) {
    variant == SingleFile && s.showDerivative
  }

  /** What one pass of the sampling loop draws at `x`: `f` is evaluated once,
      and `df` once more only when the derivative is shown. */
  function PlotSample(variant: Variant, s: Session, f: real -> real, df: real -> real, x: real): Plot
    requires s.view.xmin != s.view.xmax && s.view.ymin != s.view.ymax
  {
    Plot(x, PlotAt(s.view, x, f(x)),
         if DerivativeShown(variant, s) then Some(PlotAt(s.view, x, df(x))) else None)
  }

  /** Every sample of the frame, in the order the loop takes them. */
  function Plots(variant: Variant, s: Session, f: real -> real, df: real -> real): (r: seq<Plot>)
    requires s.view.xmin != s.view.xmax && s.view.ymin != s.view.ymax
    ensures |r| == SampleCount(s.view)
    ensures forall k :: 0 <= k < |r| ==> r[k].x == SampleX(s.view, k) && r[k].curve.value == f(r[k].x)
    ensures forall k :: 0 <= k < |r| ==> (r[k].derivative.Some? <==> DerivativeShown(variant, s))
    ensures forall k :: 0 <= k < |r| && r[k].derivative.Some? ==> r[k].derivative.value.value == df(r[k].x)
    ensures forall k :: 0 <= k < |r| ==> Placed(s.view, k, r[k].curve)
    ensures forall k :: 0 <= k < |r| && r[k].derivative.Some? ==> Placed(s.view, k, r[k].derivative.value)
  {
    var r := seq(SampleCount(s.view), k requires 0 <= k => PlotSample(variant, s, f, df, SampleX(s.view, k)));
    forall k | 0 <= k < |r|
      ensures Placed(s.view, k, r[k].curve)
      ensures r[k].derivative.Some? ==> Placed(s.view, k, r[k].derivative.value)
    {
      SamplePlaced(variant, s, f, df, k);
    }
    r
  }

  /** Both points of sample `k` are where they belong. */
  lemma SamplePlaced(variant: Variant, s: Session, f: real -> real, df: real -> real, k: nat)
    requires s.view.xmin != s.view.xmax && s.view.ymin != s.view.ymax
    ensures Placed(s.view, k, PlotSample(variant, s, f, df, SampleX(s.view, k)).curve)
    ensures PlotSample(variant, s, f, df, SampleX(s.view, k)).derivative.Some? ==>
      Placed(s.view, k, PlotSample(variant, s, f, df, SampleX(s.view, k)).derivative.value)
  {
    SampleColumnAt(s.view, k, f(SampleX(s.view, k)));
    SampleColumnAt(s.view, k, df(SampleX(s.view, k)));
  }

  /** Where the point of sample `k` belongs: column `k * columns / (columns + 1)`,
      and the row `rows` less the value's share of the y span, so that
      `ymin` is drawn on the bottom row and `ymax` on row 0. */
  predicate Placed(v: Viewport, k: nat, p: Point) {
    && p.col * (v.columns as real + 1.0) == k as real * v.columns as real
    && (p.row - v.rows as real) * YSpan(v) == -(p.value - v.ymin) * v.rows as real
  }

  /** `graph_draw` / `draw_graph` as the source writes it: `x` starts at
      `xmin` and grows by the step while `x <= xmax`. */
  method DrawGraph(variant: Variant, s: Session, f: real -> real, df: real -> real) returns (plots: seq<Plot>)
    requires s.view.xmin != s.view.xmax && s.view.ymin != s.view.ymax
    ensures plots == Plots(variant, s, f, df)
  {
    ghost var all := Plots(variant, s, f, df);
    var v := s.view;
    var step := XStep(v);
    var x := v.xmin;
    var k: nat := 0;
    plots := [];
    while x <= v.xmax
      invariant k <= SampleCount(v)
      invariant x == SampleX(v, k)
      invariant plots == all[..k]
      decreases SampleCount(v) - k
    {
      SampleBound(v, k);
      SampleNext(v, k);
      PrefixStep(all, k, PlotSample(variant, s, f, df, x));
      plots := plots + [PlotSample(variant, s, f, df, x)];
      x := x + step;
      k := k + 1;
    }
    SampleBound(v, k);
    assert plots == all[..|all|];
  }

  /** A frame samples the function exactly once per sample and the
      derivative never while it is hidden: with the derivative shown there
      are two points per sample, otherwise one. */
  lemma EvaluationCounts(variant: Variant, s: Session, f: real -> real, df: real -> real)
    requires Valid(s.view)
    ensures |Plots(variant, s, f, df)| == s.view.columns + 2
    ensures !DerivativeShown(variant, s) ==> forall p :: p in Plots(variant, s, f, df) ==> p.derivative.None?
    ensures DerivativeShown(variant, s) ==> forall p :: p in Plots(variant, s, f, df) ==> p.derivative.Some?
  {
  }
}
